=== FILE: README.md ===
# Team pages: slugs, admins, auth and pledge replies

A Dafny model of the core of a donation-pledge "team page" application
(Python 2 on App Engine). A team page has a title and is reached through a
slug: a short URL segment such as `3fa9-My-Pledge-Page`. The model covers:

- **Slug allocation** (`SlugBase`, `Hex`, `SlugAlloc`). The title is turned into a base:
  every character outside `[A-Za-z0-9_-]` becomes `-`, then each run of hyphens
  becomes a single hyphen. The slug is a random hex prefix, a `-`, and the base.
  `Slug._make` reserves a slug with an atomic insert-if-absent on the slug store.
  `Slug.new` retries with a prefix that grows by one byte per attempt, starting at two bytes.
- **Team resolution, authorisation and the create/edit flow** (`Teams`,
  `TeamsLemmas`). The site state is one immutable value: teams by key, slugs by
  name, and the set of `AdminToTeam` rows. `validate` and each handler are pure
  functions of that state. The posts return the new state along with the response.
- **The test authentication service** and the "any failure means logged out"
  rule of the production service (`Auth`).
- **Pledge service replies** (`Pledge`): the test fixture, the status-code
  dispatch, and the parsing of a `getTeamTotal` body.
- **The Python 2 text operations these rely on** (`PyText`): ASCII `\w`,
  `re.match` with `^…$`, `int()` on a string, and `str.split`.

Randomness is an input. `draws[k]` is the `os.urandom` result of the k-th
attempt, and it is `2 + k` bytes long. The viewer of a page is also an input:
`None` when the auth response says logged out, otherwise the `user_id` of the
current user.

Where the code differs from what a reader might expect, the model follows the code:

- One might expect trailing hyphens to be stripped from the base, and an empty
  base to give a slug with no hyphen. The code strips nothing. An empty
  title gives the slug `<hex>-`. A title made only of invalid characters, such as
  "???", gives the base `-` and the slug `<hex>--`. "Hello, World!!" gives
  `Hello-World-` (`SlugBase.HelloWorldBase`).
- One might expect a short-lived cache in front of the admin check.
  The code has no cache: the check is one existence query on the `AdminToTeam`
  rows, and that is what the model does.
- One might expect the goal to be a non-negative integer. The code accepts any
  `int()` literal, negative ones included.

## Model

| member | source | states |
|---|---|---|
| PyText.LineMatchCharacterized | backend/main.py:24-25 | `^C+$` matches exactly when a non-empty prefix is all in the class and the rest is empty or one newline |
| PyText.ParseIntText | pledge.py:40-41 | `int()` inverts `str()` on every integer, even with whitespace on either side |
| PyText.ParseIntNeedsDigit | pledge.py:40-41 | `int()` fails on a piece with no digit, such as the empty piece after a trailing comma |
| PyText.ParseIntAccepts | pledge.py:40-41 | everything `int()` accepts is ASCII whitespace, an optional sign, one or more digits and whitespace, and the result is the value that literal denotes; `--5`, `1 2` and `5a5` fail |
| PyText.ParseIntLiteral | pledge.py:40-41 | conversely, every such literal (leading zeros and `+` included) is accepted with its value |
| PyText.NatTextValue | pledge.py:40-41 | the decimal digits of `str(n)` evaluate back to n |
| PyText.ParseInt | pledge.py:40-41 | definition of `int()` on a string; a parsed piece ends, after stripping, in a digit; properties in PyText.ParseIntText and PyText.ParseIntNeedsDigit |
| PyText.Split | pledge.py:41 | definition of `str.split`; never yields zero pieces; properties in PyText.SplitCount, PyText.JoinSplit and PyText.SplitJoin |
| PyText.SplitCount | pledge.py:41 | `split(",")` yields one more piece than the string has commas |
| PyText.SplitPiecesFree | pledge.py:41 | no piece produced by `split` contains the separator |
| PyText.JoinSplit | pledge.py:41 | joining the split pieces with the separator restores the string |
| PyText.SplitJoin | pledge.py:41 | splitting a join of separator-free pieces gives the pieces back |
| SlugBase.Sanitize | backend/main.py:26 | same length; a character is kept exactly when it is in `[\w-]`, and every other character becomes `-` |
| SlugBase.Collapse | backend/main.py:27 | definition of the `-+` to `-` substitution; never longer, and keeps the first character; properties in SlugBase.CollapseHasNoDoubleHyphen and SlugBase.CollapseFixpoint |
| SlugBase.CollapseHasNoDoubleHyphen | backend/main.py:27 | after collapsing, no two hyphens are adjacent |
| SlugBase.CollapseFixpoint | backend/main.py:27 | collapsing leaves a string unchanged exactly when it has no doubled hyphen |
| SlugBase.CollapseMergesHyphens | backend/main.py:27 | a doubled hyphen anywhere collapses like a single one |
| SlugBase.CollapseKeepsOthers | backend/main.py:27 | collapsing keeps every non-hyphen character, in order |
| SlugBase.Base | backend/main.py:116 | definition of the base of a title; no longer than the title and empty only for the empty title; properties in SlugBase.BaseShape and SlugBase.BaseIdempotent |
| SlugBase.BaseShape | backend/main.py:116 | the base uses only ASCII letters, digits, `_` and `-`, and has no two hyphens in a row |
| SlugBase.BaseKeepsWordChars | backend/main.py:116 | the title's word characters survive in the base, in order and with their case |
| SlugBase.BaseIdempotent | backend/main.py:116 | deriving a base from a base changes nothing |
| SlugBase.BaseEmpty | backend/main.py:116 | the base is empty exactly for the empty title |
| SlugBase.BaseOfInvalidTitle | backend/main.py:116 | a non-empty title with no `[\w-]` character has the base `-`; no hyphen is stripped |
| SlugBase.HelloWorldBase | backend/main.py:116 | "Hello, World!!" has the base "Hello-World-", with a trailing hyphen |
| Hex.Encode | backend/main.py:119 | n bytes give 2n characters, all lower-case hex digits |
| Hex.DecodeEncode | backend/main.py:119 | decoding the hex encoding gives the bytes back |
| Hex.EncodeDecode | backend/main.py:119 | every decodable hex string is the encoding of what it decodes to |
| SlugAlloc.Make | backend/main.py:107-112 | it creates exactly when the key is absent; existing entries are unchanged; it adds only the key, and on creation the key maps to the team |
| SlugAlloc.AllocateFrom | backend/main.py:117-123 | it fails exactly when every candidate is taken; on success the slug is the first free candidate, it was absent, and the store gains only slug→team |
| SlugAlloc.Allocate | backend/main.py:114-123 | definition of `Slug.new` from the first attempt; fails exactly when every candidate is taken, otherwise reserves a fresh slug for the team and nothing else; properties in SlugAlloc.AllocateFrom |
| SlugAlloc.New | backend/main.py:114-123 | the loop with a growing token amount reserves a fresh slug for the team and leaves every other entry unchanged; it agrees with the recursive definition |
| SlugAlloc.AllocatedSlugShape | backend/main.py:117-121 | on attempt k the slug is 2·(2+k) hex digits, a `-`, then the base unchanged |
| SlugAlloc.ParseCandidate | backend/main.py:121 | a candidate slug splits at its first hyphen back into its random prefix and its base |
| SlugAlloc.SuccessiveAllocationsDiffer | backend/main.py:107-123 | two allocations in a row never return the same slug, and both stay mapped to their teams |
| Teams.IsAdmin | backend/main.py:168-172 | definition: the viewer is logged in and an `AdminToTeam` row pairs them with the team; properties in Teams.Validate |
| Teams.Validate | backend/main.py:156-173 | not found exactly for an unknown slug or a missing team; not primary exactly when the team has a non-empty primary slug different from the request; admin exactly when a logged-in viewer has an `AdminToTeam` row |
| Teams.TeamGet | backend/main.py:177-190 | 404 exactly when validate fails; a non-primary slug is always redirected, permanently, to `/t/<primary>`, and only such a slug is; the page shows an edit URL exactly for admins, and it is `/t/<primary>/edit` |
| Teams.EditGet | backend/main.py:236-244 | 404 exactly when validate fails; a non-primary slug redirects permanently to `/t/<primary>/edit`; on the primary slug, a non-admin is sent to `/t/<primary>` with a temporary redirect and an admin gets the form |
| Teams.NewGet | backend/main.py:134-141 | `require_login`: the form exactly for a logged-in viewer, otherwise a redirect to `/` |
| Teams.OrNone | backend/main.py:213 | `x or None`: absent exactly for the empty string |
| Teams.CheckForm | backend/main.py:213-221 | succeeds exactly when a non-empty goal parses as an integer, a non-empty YouTube id matches `^[\w\-]+$` and a non-empty zip matches `^[0-9]+$`; each of the three errors (goal, YouTube id, zip code) is characterized exactly, and they are checked in that order; the parsed fields are returned |
| Teams.NewPost | backend/main.py:207-231 | a logged-out viewer is redirected to `/`; a rejected form raises with no write; slugs are append-only and admin rows only grow |
| Teams.EditPost | backend/main.py:247-273 | unknown slug gives 404 and a non-admin a redirect to the view page, both with no write; an admin's rejected form is a server error and writes nothing; an exhausted allocation writes nothing; a successful edit stores the submitted title, description and checked fields with the new slug as primary, leaves every other team's record alone, and adds only that slug; slugs append-only; admin rows unchanged |
| TeamsLemmas.PrimaryIsCurrent | backend/main.py:165-167 | in a consistent site, a slug is primary exactly when it is the team's current primary slug |
| TeamsLemmas.SlugResolution | backend/main.py:177-186 | every reserved slug shows its team if it is the primary slug, and otherwise redirects permanently to `/t/<primary>` |
| TeamsLemmas.EditPageResolution | backend/main.py:236-244 | the edit page of a reserved slug redirects non-primary slugs permanently, sends non-admins to the view page, and shows the form to admins |
| TeamsLemmas.NewPostValid | backend/main.py:222-230 | creating a team keeps the site consistent, even when the allocation does not finish |
| TeamsLemmas.CreateTeamValid | backend/main.py:222-230 | the four writes of a create (team without slug, admin row, slug reservation, team with slug) keep the site consistent, whether or not allocation succeeds |
| TeamsLemmas.EditPostValid | backend/main.py:256-272 | editing a team keeps the site consistent |
| TeamsLemmas.NewPostCreates | backend/main.py:222-231 | a successful create gives a fresh key whose record holds the submitted title, description and checked fields with the freshly reserved slug as primary, adds only that key, adds an admin row for the creator, and redirects to the slug |
| TeamsLemmas.NewPostShowsPage | backend/main.py:177-190 | after a successful create, the slug the creator is redirected to resolves to the new team's page as its primary, with the edit link the creator is entitled to |
| TeamsLemmas.InvalidFormWritesNothing | backend/main.py:213-221 | an invalid goal, YouTube id or zip code leaves the site unchanged on both create and edit |
| TeamsLemmas.EditPostMovesPrimary | backend/main.py:256-273 | a successful edit makes a fresh slug primary and stores the submitted fields in the team's record, changing no other record; every older slug of the team redirects permanently to it, other teams resolve as before, admins are unchanged |
| TeamsLemmas.EditByNonAdmin | backend/main.py:251-252 | a non-admin's edit post redirects to the view page and changes nothing |
| TeamsLemmas.CreateThenEdit | backend/main.py:207-273 | after create then edit, the first slug redirects permanently to the second, which shows the page with an edit link to its creator |
| Auth.Login | backend/auth.py:19-24 | logged in, with a user carrying the given name and provider |
| Auth.Logout | backend/auth.py:26-27 | logged out, and the recorded user is kept |
| Auth.GetAuthResponse | backend/auth.py:35-46 | logged out gives no user and login links for exactly google, facebook, twitter and yahoo; logged in gives the recorded user |
| Auth.FreshIsLoggedOut | backend/auth.py:15-17 | a fresh service reports logged out, with the four login links |
| Auth.LoginResponse | backend/auth.py:19-46 | after login the response is logged in with md5("provider:name") as the user id, whatever the state was before |
| Auth.LoginOverwrites | backend/auth.py:19-24 | login overwrites the user regardless of the previous state |
| Auth.LogoutLoginCycle | backend/auth.py:19-27 | logout then login equals login; logout is idempotent; logout keeps the last user |
| Auth.HandleGet | backend/auth.py:59-72 | `logout` logs out and redirects to return_to; `login` shows the form and changes nothing; any other action is an error |
| Auth.HandlePost | backend/auth.py:74-80 | only `login` is accepted; it logs in and redirects; anything else is an error with no change |
| Auth.LoginThenLogoutViaHandler | backend/auth.py:59-80 | posting the login form and then following logout leaves the service logged out with the four links, and the user is kept |
| Auth.ProdGetAuthResponse | backend/auth.py:90-105 | any fetch failure, non-200 status or undecodable body gives `{logged_in: false, login_links: {}}`; a decoded 200 reply is returned as is |
| Auth.ProdFailClosed | backend/auth.py:93-105 | only a decoded 200 reply that says logged in can make the result logged in |
| Pledge.TestLoadPledgeInfo | pledge.py:7-13 | the fixture (zip 55555, 10000 cents) exactly for tokens starting with "valid", otherwise none |
| Pledge.TestGetTeamTotal | pledge.py:15-16 | (51800, 7) for every team |
| Pledge.ProdLoadPledgeInfo | pledge.py:27-33 | 404 gives none; other non-200 statuses are errors; a 200 reply gives its "user" field, or an error when the body has none; a pledge comes only that way |
| Pledge.ParseAll | pledge.py:40-41 | on success, one number per piece, each being `int()` of its piece; on failure, some piece is not an integer literal |
| Pledge.ParseTotal | pledge.py:40-41 | definition of the `/total` body parse; a parse has at least one number; properties in Pledge.TotalArity and Pledge.TupleRoundTrip |
| Pledge.ProdGetTeamTotal | pledge.py:35-41 | a non-200 status is an error; a 200 reply succeeds with the parse of its body exactly when the body parses, and is an error otherwise (see Pledge.TupleRoundTrip for which bodies parse) |
| Pledge.TotalArity | pledge.py:40-41 | a parsed total has one number more than the body has commas; parentheses anywhere are ignored |
| Pledge.TupleRoundTrip | pledge.py:40-41 | the parse inverts the repr of a tuple of plain ints exactly for two or more numbers; `()` and `(5,)` fail |
| Pledge.ExampleTotal | pledge.py:40-41 | "(51800, 7)" parses to (51800, 7) |

## Left out

- HTTP fetching, JSON decoding, `urllib.urlencode`, cookies, jinja2 and Markdown
  rendering, and webapp2 routing. They are abstract outcomes (`Auth.Fetch`,
  `Pledge.InfoBody`), data (`Auth.Link`) or response constructors (`Teams.Response`).
- md5 in `TestAuthService._login` is the function parameter `digest`. The model
  does not compute the digest.
- Auth.Login: treats the digest as total. In the source, `_login` sets the
  logged-in flag (backend/auth.py:20) before it calls md5 (line 22), and md5
  of a non-ASCII unicode name raises. So such a login leaves the service logged
  in with the previous user (None on a fresh service). Encoding errors in
  Python 2's hashlib are outside the model.
- SlugAlloc.New: the source loops until a reservation succeeds. The model stops
  when the supplied draws run out, and the handlers answer `Unfinished`. In that
  case a newly created team has no slug, exactly as the source leaves it between
  its two `put`s.
- Datastore transactions and concurrency: each handler is one atomic step, and
  `_make` is one map operation. Interleavings of concurrent requests are not modelled.
- Team keys come from a counter (`nextTeam`) that stands for the keys the
  datastore assigns.
- `AdminToTeam` rows are a set, so duplicate rows are merged. The source only
  ever asks whether a row exists.
- Teams.CheckForm: accepts any integer goal. `db.IntegerProperty` raises
  `BadValueError` for a goal outside the signed 64-bit range, which happens
  before any `put`, so such a post fails with nothing written. The datastore
  library's range check is outside the model.
- Property validation by the datastore library is not modelled. This covers
  `required=True` on title and description, single-line and length limits on
  `StringProperty`, and the `image` blob.
- `render_template`, `notfound`, `logout_link`, `getLogoutLink`, `handlers()`,
  `IndexHandler`, `DashboardHandler` and `NotFoundHandler` are not modelled.
  They only assemble pages or URLs, or list teams.
- A response that says logged in but carries no user makes the source raise on
  `current_user["user_id"]`. The model takes the viewer's id as an input, so
  this case does not arise.
- `str(return_to)` in the test auth handler can raise on non-ASCII input. That is not modelled.
- PyText.ParseInt: handles only ASCII. It accepts surrounding whitespace, one
  optional sign and decimal digits. Unicode digits and whitespace, and any
  whitespace between the sign and the digits, are not modelled.
- Pledge.TupleRoundTrip: covers the repr of a tuple of plain ints only. In
  Python 2 a `long` prints with an `L` suffix, as in `(51800L, 7)`, and `int()`
  rejects such a piece. The model does not distinguish `int` from `long`.
- The top-level main.py, Gruntfile.js, static/login_modal.js and
  backend/pledge.py are outside the core. backend/pledge.py repeats the 404/200
  dispatch that `Pledge.ProdLoadPledgeInfo` models.

=== FILE: auth.dfy ===
/** The authentication back ends (backend/auth.py): the in-memory
    `TestAuthService` with its `/_testing/auth` handler, and the failure
    collapse of `ProdAuthService.getAuthResponse`.

    md5 is a parameter `digest` (the hex digest of its argument). Link URLs are
    kept as the data they encode, since `urllib.urlencode` is not modelled. */
module Auth {
  import opened Outcomes

  datatype User = User(userId: string, name: string, provider: string)

  /** `/_testing/auth?action=login&provider=..&return_to=..`, or a link
      decoded from the production service's reply. */
  datatype Link = LoginLink(provider: string, returnTo: string) | Url(text: string)

  /** The auth response dictionary. A response without `login_links` has an
      empty map, which is what `login_links or {}` reads it as. */
  datatype AuthResponse = AuthResponse(loggedIn: bool, user: Option<User>, loginLinks: map<string, Link>)

  const Providers: set<string> := {"google", "facebook", "twitter", "yahoo"}

  // ---------------------------------------------------------------------------
  // TestAuthService

  datatype TestAuth = TestAuth(loggedIn: bool, user: Option<User>)

  /** `TestAuthService.__init__` */
  const Fresh: TestAuth := TestAuth(false, None)

  /** The user id the test service gives: md5 of "provider:name". */
  function UserId(provider: string, name: string, digest: string -> string): string {
    digest(provider + ":" + name)
  }

  /** `_login(name, provider)` */
  function Login(s: TestAuth, name: string, provider: string, digest: string -> string): (r: TestAuth)
    ensures r.loggedIn
    ensures r.user.Some? && r.user.value.name == name && r.user.value.provider == provider
  {
    TestAuth(true, Some(User(UserId(provider, name, digest), name, provider)))
  }

  /** `_logout()`: only the flag changes; the last user stays recorded. */
  function Logout(s: TestAuth): (r: TestAuth)
    ensures !r.loggedIn && r.user == s.user
  {
    s.(loggedIn := false)
  }

  /** `_loginLink(provider, return_to)` */
  function LoginLinkFor(provider: string, returnTo: string): Link {
    LoginLink(provider, returnTo)
  }

  /** `getAuthResponse(auth_token, return_to)`: the token is ignored. */
  function GetAuthResponse(s: TestAuth, authToken: string, returnTo: string): (r: AuthResponse)
    ensures r.loggedIn == s.loggedIn
    ensures !s.loggedIn ==>
      && r.user.None?
      && r.loginLinks.Keys == Providers
      && forall p :: p in r.loginLinks ==> r.loginLinks[p] == LoginLink(p, returnTo)
    ensures s.loggedIn ==> r.user == s.user && r.loginLinks == map[]
  {
    if !s.loggedIn then
      AuthResponse(false, None, map[
        "google" := LoginLinkFor("google", returnTo),
        "facebook" := LoginLinkFor("facebook", returnTo),
        "twitter" := LoginLinkFor("twitter", returnTo),
        "yahoo" := LoginLinkFor("yahoo", returnTo)])
    else AuthResponse(true, s.user, map[])
  }

  /** A fresh test service reports logged out, with a login link per provider. */
  lemma FreshIsLoggedOut(authToken: string, returnTo: string)
    ensures var r := GetAuthResponse(Fresh, authToken, returnTo);
      !r.loggedIn && r.user.None? && r.loginLinks.Keys == Providers
  {
  }

  /** After logging in, the response carries exactly that user, whose id
      depends on the provider and name only, whatever the state before. */
  lemma LoginResponse(s: TestAuth, name: string, provider: string, digest: string -> string,
                      authToken: string, returnTo: string)
    ensures GetAuthResponse(Login(s, name, provider, digest), authToken, returnTo) ==
      AuthResponse(true, Some(User(digest(provider + ":" + name), name, provider)), map[])
  {
  }

  /** Logging in overwrites the user whatever the state was. */
  lemma LoginOverwrites(s1: TestAuth, s2: TestAuth, name: string, provider: string,
                        digest: string -> string)
    ensures Login(s1, name, provider, digest) == Login(s2, name, provider, digest)
  {
  }

  /** Logging out then in again gives back a logged-in state whose user is
      the new one; logging out twice is logging out once. */
  lemma LogoutLoginCycle(s: TestAuth, name: string, provider: string, digest: string -> string)
    ensures Login(Logout(s), name, provider, digest) == Login(s, name, provider, digest)
    ensures Logout(Logout(s)) == Logout(s)
    ensures Logout(Login(s, name, provider, digest)).user == Login(s, name, provider, digest).user
  {
  }

  // ---------------------------------------------------------------------------
  // TestAuthHandler

  datatype AuthRequest = AuthRequest(action: string, provider: string, returnTo: string, userName: string)

  datatype HandlerResult = RedirectTo(location: string) | LoginForm(provider: string) | UnknownAction

  datatype HandlerStep = HandlerStep(result: HandlerResult, service: TestAuth)

  /** `TestAuthHandler.get`: "logout" logs out and redirects, "login" shows
      the fake login form, anything else raises. */
  function HandleGet(s: TestAuth, req: AuthRequest): (r: HandlerStep)
    ensures req.action == "logout" ==> r == HandlerStep(RedirectTo(req.returnTo), Logout(s))
    ensures req.action == "login" ==> r == HandlerStep(LoginForm(req.provider), s)
    ensures r.result.UnknownAction? <==> req.action != "login" && req.action != "logout"
    ensures r.result.UnknownAction? ==> r.service == s
  {
    if req.action == "logout" then HandlerStep(RedirectTo(req.returnTo), Logout(s))
    else if req.action == "login" then HandlerStep(LoginForm(req.provider), s)
    else HandlerStep(UnknownAction, s)
  }

  /** `TestAuthHandler.post`: only "login" is accepted; it logs the submitted
      name in with the provider and redirects. */
  function HandlePost(s: TestAuth, req: AuthRequest, digest: string -> string): (r: HandlerStep)
    ensures req.action == "login" ==>
      r == HandlerStep(RedirectTo(req.returnTo), Login(s, req.userName, req.provider, digest))
    ensures req.action != "login" ==> r == HandlerStep(UnknownAction, s)
  {
    if req.action == "login" then
      HandlerStep(RedirectTo(req.returnTo), Login(s, req.userName, req.provider, digest))
    else HandlerStep(UnknownAction, s)
  }

  /** Posting the login form and then following a logout link leaves the
      service logged out, with the response offering the four providers again. */
  lemma LoginThenLogoutViaHandler(s: TestAuth, login: AuthRequest, logout: AuthRequest,
                                  digest: string -> string, authToken: string)
    requires login.action == "login" && logout.action == "logout"
    ensures var s1 := HandlePost(s, login, digest).service;
      var s2 := HandleGet(s1, logout).service;
      && GetAuthResponse(s1, authToken, login.returnTo).loggedIn
      && !GetAuthResponse(s2, authToken, logout.returnTo).loggedIn
      && GetAuthResponse(s2, authToken, logout.returnTo).loginLinks.Keys == Providers
      && s2.user == s1.user
  {
  }

  // ---------------------------------------------------------------------------
  // ProdAuthService.getAuthResponse (and BaseHandler.auth_response)

  /** What the HTTP call to `/v1/current_user` came back with: a transport
      failure, or a status and the body decoded as JSON (`None` when
      `json.loads` raised). */
  datatype Fetch = FetchFailed | Fetched(status: int, body: Option<AuthResponse>)

  const LoggedOut: AuthResponse := AuthResponse(false, None, map[])

  /** Any failure, non-200 status or undecodable body reads as logged out
      with no login links. */
  function ProdGetAuthResponse(f: Fetch): (r: AuthResponse)
    ensures r != LoggedOut ==> f.Fetched? && f.status == 200 && f.body == Some(r)
    ensures f.Fetched? && f.status == 200 && f.body.Some? ==> r == f.body.value
  {
    match f
    case Fetched(status, body) =>
      if status != 200 then LoggedOut
      else if body.None? then LoggedOut
      else body.value
    case FetchFailed => LoggedOut
  }

  /** The collapse is fail-closed: only a decoded 200 reply can say logged in. */
  lemma ProdFailClosed(f: Fetch)
    requires ProdGetAuthResponse(f).loggedIn
    ensures f.Fetched? && f.status == 200 && f.body.Some? && f.body.value.loggedIn
  {
  }
}

=== FILE: hex.dfy ===
/** Python 2 `str.encode('hex')`: each byte becomes two lower-case hexadecimal
    digits, high nibble first. The decoder is the model's partner for it. */
module Hex {
  import opened Outcomes
  import opened PyText

  newtype byte = x: int | 0 <= x < 256

  predicate IsHexChar(c: char) {
    ('0' <= c <= '9') || ('a' <= c <= 'f')
  }

  function HexDigit(d: nat): (c: char)
    requires d < 16
    ensures IsHexChar(c)
  {
    if d < 10 then ('0' as int + d) as char else ('a' as int + d - 10) as char
  }

  function HexValue(c: char): (d: nat)
    requires IsHexChar(c)
    ensures d < 16 && HexDigit(d) == c
  {
    if c <= '9' then (c as int) - ('0' as int) else (c as int) - ('a' as int) + 10
  }

  function Encode(bs: seq<byte>): (s: string)
    ensures |s| == 2 * |bs|
    ensures AllChars(s, IsHexChar)
  {
    if |bs| == 0 then ""
    else [HexDigit(bs[0] as int / 16), HexDigit(bs[0] as int % 16)] + Encode(bs[1..])
  }

  function Decode(s: string): Option<seq<byte>> {
    if |s| == 0 then Some([])
    else if |s| == 1 || !IsHexChar(s[0]) || !IsHexChar(s[1]) then None
    else
      match Decode(s[2..])
      case None => None
      case Some(rest) => Some([(16 * HexValue(s[0]) + HexValue(s[1])) as byte] + rest)
  }

  /** Decoding an encoding gives the bytes back. */
  lemma {:induction false} DecodeEncode(bs: seq<byte>)
    ensures Decode(Encode(bs)) == Some(bs)
  {
    if |bs| > 0 {
      var s := Encode(bs);
      var b := bs[0] as int;
      var hi, lo := HexDigit(b / 16), HexDigit(b % 16);
      assert s == [hi, lo] + Encode(bs[1..]);
      assert s[0] == hi && s[1] == lo && s[2..] == Encode(bs[1..]);
      DecodeEncode(bs[1..]);
      assert HexValue(hi) == b / 16 && HexValue(lo) == b % 16;
      assert (16 * HexValue(hi) + HexValue(lo)) as byte == bs[0];
      assert [bs[0]] + bs[1..] == bs;
    }
  }

  /** A string that decodes is exactly the encoding of what it decodes to, so
      hex text and byte strings are in one-to-one correspondence. */
  lemma {:induction false} EncodeDecode(s: string)
    requires Decode(s).Some?
    ensures Encode(Decode(s).value) == s
  {
    if |s| > 0 {
      EncodeDecode(s[2..]);
      var hi := HexValue(s[0]);
      var lo := HexValue(s[1]);
      var b := (16 * hi + lo) as byte;
      assert b as int / 16 == hi && b as int % 16 == lo;
      assert s == [s[0], s[1]] + s[2..];
    }
  }

  lemma EncodeHasNoHyphen(bs: seq<byte>)
    ensures '-' !in Encode(bs)
  {
  }
}

=== FILE: outcomes.dfy ===
/** Failure-compatible result types shared by every module of the model.
    `Option` stands for Python's `None`-or-value returns, `Result` for a value
    or a raised exception. */
module Outcomes {

  datatype Option<+T> = None | Some(value: T) {
    predicate IsFailure() {
      None?
    }

    function PropagateFailure<U>(): Option<U>
      requires None?
    {
      None
    }

    function Extract(): T
      requires Some?
    {
      value
    }
  }

  datatype Result<+R, +E> = Success(value: R) | Failure(error: E) {
    predicate IsFailure() {
      Failure?
    }

    function PropagateFailure<U>(): Result<U, E>
      requires Failure?
    {
      Failure(error)
    }

    function Extract(): R
      requires Success?
    {
      value
    }
  }
}

=== FILE: pledge.dfy ===
/** The pledge service back ends (pledge.py): the test fixture and the reply
    handling of the production service. HTTP fetching and JSON decoding are
    not modelled; a reply is its status and its content. */
module Pledge {
  import opened Outcomes
  import opened PyText

  datatype PledgeInfo = PledgeInfo(zipCode: string, name: string, email: string, pledgeAmountCents: int)

  const TestPledgeInfo: PledgeInfo := PledgeInfo("55555", "Test User", "testuser@example.com", 10000)

  /** `TestPledgeService.loadPledgeInfo`: the fixture for tokens starting
      with "valid", nothing otherwise. */
  function TestLoadPledgeInfo(userToken: string): (r: Option<PledgeInfo>)
    ensures r.Some? <==> |userToken| >= 5 && userToken[..5] == "valid"
    ensures r.Some? ==> r.value.zipCode == "55555" && r.value.pledgeAmountCents == 10000
  {
    if |userToken| >= 5 && userToken[..5] == "valid" then Some(TestPledgeInfo) else None
  }

  /** `TestPledgeService.getTeamTotal`: the same total for every team. */
  function TestGetTeamTotal(team: nat): (r: seq<int>)
    ensures r == [51800, 7]
  {
    [51800, 7]
  }

  datatype PledgeError = UnexpectedStatus(status: int) | MalformedReply

  /** The JSON body of a `/user-info/<token>` reply: not JSON, JSON without a
      "user" key, or the "user" value (`None` for JSON null). */
  datatype InfoBody = Undecodable | NoUserField | UserField(user: Option<PledgeInfo>)

  /** `ProdPledgeService.loadPledgeInfo` on the reply: 404 is "no such
      pledge", any other status but 200 raises, 200 gives the "user" field. */
  function ProdLoadPledgeInfo(status: int, body: InfoBody): (r: Result<Option<PledgeInfo>, PledgeError>)
    ensures status == 404 ==> r == Success(None)
    ensures status != 404 && status != 200 ==> r == Failure(UnexpectedStatus(status))
    ensures r.Success? && r.value.Some? ==> status == 200 && body == UserField(r.value)
    ensures status == 200 ==>
      r == (if body.UserField? then Success(body.user) else Failure(MalformedReply))
  {
    if status == 404 then Success(None)
    else if status != 200 then Failure(UnexpectedStatus(status))
    else match body
      case UserField(u) => Success(u)
      case _ => Failure(MalformedReply)
  }

  predicate NotParen(c: char) {
    c != '(' && c != ')'
  }

  /** `content.replace("(", "").replace(")", "")` */
  function RemoveParens(s: string): string {
    Filter(s, NotParen)
  }

  /** `tuple(map(int, pieces))`: every piece through `int()`, failing if any fails. */
  function ParseAll(pieces: seq<string>): (r: Option<seq<int>>)
    ensures r.Some? ==> |r.value| == |pieces| && forall i :: 0 <= i < |pieces| ==> ParseInt(pieces[i]) == Some(r.value[i])
    ensures r.None? ==> exists i :: 0 <= i < |pieces| && ParseInt(pieces[i]).None?
  {
    if |pieces| == 0 then Some([])
    else match ParseInt(pieces[0])
      case None => None
      case Some(v) =>
        match ParseAll(pieces[1..])
        case None => None
        case Some(vs) => Some([v] + vs)
  }

  /** The body of a `/total` reply parsed as `getTeamTotal` does. */
  function ParseTotal(content: string): (r: Option<seq<int>>)
    ensures r.Some? ==> |r.value| > 0
  {
    ParseAll(Split(RemoveParens(content), ','))
  }

  /** `ProdPledgeService.getTeamTotal` on the reply. */
  function ProdGetTeamTotal(status: int, content: string): (r: Result<seq<int>, PledgeError>)
    ensures status != 200 ==> r == Failure(UnexpectedStatus(status))
    ensures r.Success? ==> ParseTotal(content) == Some(r.value)
    ensures status == 200 && ParseTotal(content).None? ==> r == Failure(MalformedReply)
    ensures status == 200 && ParseTotal(content).Some? ==> r == Success(ParseTotal(content).value)
  {
    if status != 200 then Failure(UnexpectedStatus(status))
    else match ParseTotal(content)
      case None => Failure(MalformedReply)
      case Some(t) => Success(t)
  }

  /** A parsed total has one number more than the content has commas, and no
      parenthesis anywhere in the content matters. */
  lemma TotalArity(content: string)
    requires ParseTotal(content).Some?
    ensures |ParseTotal(content).value| == Count(content, ',') + 1
    ensures ParseTotal(RemoveParens(content)) == ParseTotal(content)
  {
    SplitCount(RemoveParens(content), ',');
    CountIgnoresParens(content);
    FilterAll(RemoveParens(content), NotParen);
  }

  lemma {:induction false} CountIgnoresParens(s: string)
    ensures Count(RemoveParens(s), ',') == Count(s, ',')
  {
    if |s| > 0 {
      CountIgnoresParens(s[1..]);
      var head := if NotParen(s[0]) then [s[0]] else "";
      assert RemoveParens(s) == head + RemoveParens(s[1..]);
      CountConcat(head, RemoveParens(s[1..]), ',');
    }
  }

  lemma {:induction false} CountConcat(a: string, b: string, c: char)
    ensures Count(a + b, c) == Count(a, c) + Count(b, c)
  {
    if |a| > 0 {
      assert (a + b)[1..] == a[1..] + b;
      CountConcat(a[1..], b, c);
    } else {
      assert a + b == b;
    }
  }

  // ---------------------------------------------------------------------------
  // The reply the total endpoint is meant to send: the repr of a tuple of plain
  // ints (a Python 2 `long` would print with an `L` suffix, which `int()` rejects).

  predicate NumChar(c: char) {
    IsDigit(c) || c == '-' || c == ' '
  }

  /** The items of a tuple repr between the separating commas. */
  function TuplePieces(xs: seq<int>): (ps: seq<string>)
    ensures |ps| == |xs|
  {
    seq(|xs|, i requires 0 <= i < |xs| => (if i == 0 then "" else " ") + IntText(xs[i]))
  }

  /** `repr(tuple(xs))` for plain ints: "()" , "(5,)", "(51800, 7)". */
  function TupleText(xs: seq<int>): string {
    if |xs| == 0 then "()"
    else "(" + Join(TuplePieces(xs), ",") + (if |xs| == 1 then "," else "") + ")"
  }

  lemma IntTextChars(n: int)
    ensures AllChars(IntText(n), NumChar)
  {
    if n < 0 {
      assert IntText(n) == "-" + NatText(-n);
    }
  }

  lemma TuplePiecesChars(xs: seq<int>)
    ensures forall k :: 0 <= k < |xs| ==> AllChars(TuplePieces(xs)[k], NumChar)
  {
    forall k | 0 <= k < |xs|
      ensures AllChars(TuplePieces(xs)[k], NumChar)
    {
      IntTextChars(xs[k]);
    }
  }

  lemma {:induction false} JoinChars(ps: seq<string>, sep: string, cls: char -> bool)
    requires forall k :: 0 <= k < |ps| ==> AllChars(ps[k], cls)
    requires AllChars(sep, cls)
    ensures AllChars(Join(ps, sep), cls)
  {
    if |ps| > 1 {
      JoinChars(ps[1..], sep, cls);
    }
  }

  predicate TupleChar(c: char) {
    NumChar(c) || c == ','
  }

  /** The parenthesis-free text between the outer parentheses of a tuple repr. */
  lemma TupleTextInner(xs: seq<int>)
    requires |xs| > 0
    ensures RemoveParens(TupleText(xs)) ==
      Join(TuplePieces(xs), ",") + (if |xs| == 1 then "," else "")
  {
    var ps := TuplePieces(xs);
    var j := Join(ps, ",");
    var tail := if |xs| == 1 then "," else "";
    var u := j + tail;
    assert AllChars(j, TupleChar) by {
      TuplePiecesChars(xs);
      assert forall k :: 0 <= k < |ps| ==> AllChars(ps[k], TupleChar) by {
        forall k | 0 <= k < |ps| ensures AllChars(ps[k], TupleChar) {
          assert AllChars(ps[k], NumChar);
        }
      }
      JoinChars(ps, ",", TupleChar);
    }
    assert AllChars(u, NotParen) by {
      forall i | 0 <= i < |u| ensures NotParen(u[i]) {
        if i < |j| {
          assert u[i] == j[i] && TupleChar(j[i]);
        } else {
          assert u[i] == tail[i - |j|];
        }
      }
    }
    assert TupleText(xs) == "(" + j + tail + ")";
    assert "(" + j + tail + ")" == "(" + (u + ")");
    RemoveOuterParens(u);
  }

  lemma RemoveOuterParens(u: string)
    requires AllChars(u, NotParen)
    ensures RemoveParens("(" + (u + ")")) == u
  {
    FilterAll(u, NotParen);
    FilterConcat("(", u + ")", NotParen);
    FilterConcat(u, ")", NotParen);
    assert Filter("(", NotParen) == "";
    assert Filter(")", NotParen) == "";
  }

  /** The parse of the total is the inverse of the tuple repr exactly for
      tuples of two or more numbers: "(51800, 7)" reads back as (51800, 7),
      while "()" and the one-element "(5,)" make `int()` fail on an empty piece. */
  lemma TupleRoundTrip(xs: seq<int>)
    ensures ParseTotal(TupleText(xs)) == (if |xs| >= 2 then Some(xs) else None)
  {
    if |xs| == 0 {
      assert RemoveParens("()") == "";
      ParseIntNeedsDigit("");
    } else if |xs| == 1 {
      SingletonTupleFails(xs);
    } else {
      TupleOfTwoOrMore(xs);
    }
  }

  lemma PiecesCommaFree(xs: seq<int>)
    ensures forall k :: 0 <= k < |xs| ==> ',' !in TuplePieces(xs)[k]
  {
    var ps := TuplePieces(xs);
    TuplePiecesChars(xs);
    forall k | 0 <= k < |ps| ensures ',' !in ps[k] {
      assert AllChars(ps[k], NumChar);
    }
  }

  lemma SingletonTupleFails(xs: seq<int>)
    requires |xs| == 1
    ensures ParseTotal(TupleText(xs)) == None
  {
    var ps := TuplePieces(xs);
    var inner := RemoveParens(TupleText(xs));
    assert inner == Join(ps + [""], ",") by {
      TupleTextInner(xs);
      assert Join(ps, ",") + "," == Join(ps + [""], ",");
    }
    var pieces := Split(inner, ',');
    assert pieces == ps + [""] by {
      PiecesCommaFree(xs);
      SplitJoin(ps + [""], ',');
    }
    assert ParseAll(pieces) == None by {
      ParseIntNeedsDigit("");
      assert ParseInt(pieces[1]).None?;
    }
  }

  lemma TupleOfTwoOrMore(xs: seq<int>)
    requires |xs| >= 2
    ensures ParseTotal(TupleText(xs)) == Some(xs)
  {
    var ps := TuplePieces(xs);
    var inner := RemoveParens(TupleText(xs));
    assert inner == Join(ps, ",") by {
      TupleTextInner(xs);
    }
    var pieces := Split(inner, ',');
    assert pieces == ps by {
      PiecesCommaFree(xs);
      SplitJoin(ps, ',');
    }
    assert ParseAll(ps) == Some(xs) by {
      PiecesParse(xs);
    }
  }

  lemma PiecesParse(xs: seq<int>)
    ensures ParseAll(TuplePieces(xs)) == Some(xs)
  {
    forall i | 0 <= i < |xs|
      ensures ParseInt(TuplePieces(xs)[i]) == Some(xs[i])
    {
      var pre := if i == 0 then "" else " ";
      ParseIntText(xs[i], pre, "");
      assert TuplePieces(xs)[i] == pre + IntText(xs[i]) + "";
    }
    ParseAllExact(TuplePieces(xs), xs);
  }

  lemma {:induction false} ParseAllExact(ps: seq<string>, xs: seq<int>)
    requires |ps| == |xs|
    requires forall i :: 0 <= i < |ps| ==> ParseInt(ps[i]) == Some(xs[i])
    ensures ParseAll(ps) == Some(xs)
  {
    if |ps| > 0 {
      ParseAllExact(ps[1..], xs[1..]);
      assert [xs[0]] + xs[1..] == xs;
    }
  }

  /** A tuple repr such as "(51800, 7)" parses back to its numbers. */
  lemma ExampleTotal()
    ensures ParseTotal("(51800, 7)") == Some([51800, 7])
  {
    assert NatText(5) == "5";
    assert NatText(51) == "51";
    assert NatText(518) == "518";
    assert NatText(5180) == "5180";
    assert NatText(51800) == "51800";
    assert NatText(7) == "7";
    assert IntText(51800) == "51800" && IntText(7) == "7";
    assert TupleText([51800, 7]) == "(51800, 7)";
    TupleRoundTrip([51800, 7]);
  }
}

=== FILE: pytext.dfy ===
/** The pieces of Python 2 string handling the core relies on, restricted to
    ASCII: the `\w` character class (no `re.UNICODE` flag), `re.match` with a
    `^...$` pattern, `str.split`, and the built-in `int()` on a string. */
module PyText {
  import opened Outcomes

  /** `\w` without `re.UNICODE`: ASCII letters, digits and underscore. */
  predicate IsWordChar(c: char) {
    ('a' <= c <= 'z') || ('A' <= c <= 'Z') || ('0' <= c <= '9') || c == '_'
  }

  /** The class `[\w-]` (and `[\w\-]`). */
  predicate IsSlugChar(c: char) {
    IsWordChar(c) || c == '-'
  }

  predicate IsDigit(c: char) {
    '0' <= c <= '9'
  }

  /** Python 2 `str.isspace` on one ASCII character: space, \t, \n, \v, \f, \r. */
  predicate IsSpace(c: char) {
    c == ' ' || c == '\t' || c == '\n' || c == 11 as char || c == 12 as char || c == '\r'
  }

  predicate AllChars(s: string, cls: char -> bool) {
    forall i :: 0 <= i < |s| ==> cls(s[i])
  }

  /** `re.match(r'^C+$', s)` for a character class C: `$` matches at the end of
      the string or just before a newline that ends it. */
  predicate LineMatch(s: string, cls: char -> bool) {
    || (|s| > 0 && AllChars(s, cls))
    || (|s| > 1 && s[|s| - 1] == '\n' && AllChars(s[..|s| - 1], cls))
  }

  lemma LineMatchCharacterized(s: string, cls: char -> bool)
    requires !cls('\n')
    ensures LineMatch(s, cls) <==>
      exists n :: 0 < n <= |s| && AllChars(s[..n], cls) && (s[n..] == "" || s[n..] == "\n")
  {
    if LineMatch(s, cls) {
      if |s| > 0 && AllChars(s, cls) {
        assert s[..|s|] == s;
        assert AllChars(s[..|s|], cls) && s[|s|..] == "";
      } else {
        assert s[|s| - 1..] == "\n";
      }
    }
    if exists n :: 0 < n <= |s| && AllChars(s[..n], cls) && (s[n..] == "" || s[n..] == "\n") {
      var n :| 0 < n <= |s| && AllChars(s[..n], cls) && (s[n..] == "" || s[n..] == "\n");
      if s[n..] == "" {
        assert s == s[..n];
      } else {
        assert |s| == n + 1 && s[|s| - 1] == '\n';
        assert s[..|s| - 1] == s[..n];
      }
    }
  }

  // ---------------------------------------------------------------------------
  // str.strip() and int()

  function LStrip(s: string): (r: string)
    ensures |r| <= |s| && r == s[|s| - |r|..]
    ensures r == "" || !IsSpace(r[0])
    ensures forall i :: 0 <= i < |s| - |r| ==> IsSpace(s[i])
  {
    if |s| > 0 && IsSpace(s[0]) then LStrip(s[1..]) else s
  }

  function RStrip(s: string): (r: string)
    ensures |r| <= |s| && r == s[..|r|]
    ensures r == "" || !IsSpace(r[|r| - 1])
    ensures forall i :: |r| <= i < |s| ==> IsSpace(s[i])
  {
    if |s| > 0 && IsSpace(s[|s| - 1]) then RStrip(s[..|s| - 1]) else s
  }

  /** The whitespace `int()` ignores around the literal. */
  function Strip(s: string): string {
    RStrip(LStrip(s))
  }

  function DigitValue(c: char): (d: nat)
    requires IsDigit(c)
    ensures d < 10
  {
    (c as int) - ('0' as int)
  }

  /** The value of a decimal digit string, most significant digit first. */
  function DigitsValue(ds: string): nat
    requires AllChars(ds, IsDigit)
  {
    if |ds| == 0 then 0 else 10 * DigitsValue(ds[..|ds| - 1]) + DigitValue(ds[|ds| - 1])
  }

  /** `int(s)` for a Python 2 string: surrounding whitespace, an optional sign
      and at least one decimal digit; anything else raises `ValueError`, which
      is `None` here. */
  function ParseInt(s: string): (r: Option<int>)
    ensures r.Some? ==> |Strip(s)| > 0 && IsDigit(Strip(s)[|Strip(s)| - 1])
  {
    ParseLiteral(Strip(s))
  }

  /** An optionally signed decimal literal with nothing around it. */
  function ParseLiteral(t: string): (r: Option<int>)
    ensures r.Some? ==> |t| > 0 && IsDigit(t[|t| - 1])
  {
    if |t| > 0 && (t[0] == '-' || t[0] == '+') then
      var ds := t[1..];
      if |ds| > 0 && AllChars(ds, IsDigit) then
        var v: int := DigitsValue(ds);
        Some(if t[0] == '-' then -v else v)
      else None
    else if |t| > 0 && AllChars(t, IsDigit) then Some(DigitsValue(t))
    else None
  }

  function DigitChar(d: nat): (c: char)
    requires d < 10
    ensures IsDigit(c) && DigitValue(c) == d
  {
    "0123456789"[d]
  }

  /** `str(n)` for a natural number. */
  function NatText(n: nat): (s: string)
    ensures |s| > 0 && AllChars(s, IsDigit)
    decreases n
  {
    if n < 10 then [DigitChar(n)] else NatText(n / 10) + [DigitChar(n % 10)]
  }

  /** `str(n)` for an integer. */
  function IntText(n: int): string {
    if n < 0 then "-" + NatText(-n) else NatText(n)
  }

  lemma {:induction false} NatTextValue(n: nat)
    ensures DigitsValue(NatText(n)) == n
    decreases n
  {
    var s := NatText(n);
    if n >= 10 {
      NatTextValue(n / 10);
      assert s[..|s| - 1] == NatText(n / 10);
    }
  }

  /** Round trip: `int(str(n)) == n`, also with whitespace on either side. */
  lemma ParseIntText(n: int, pre: string, post: string)
    requires AllChars(pre, IsSpace) && AllChars(post, IsSpace)
    ensures ParseInt(pre + IntText(n) + post) == Some(n)
  {
    var t := IntText(n);
    if n < 0 {
      var ds := NatText(-n);
      assert t == "-" + ds && t[|t| - 1] == ds[|ds| - 1];
    }
    StripAround(pre, t, post);
    ParseIntOfText(pre + t + post, n);
  }

  lemma ParseIntOfText(s: string, n: int)
    requires Strip(s) == IntText(n)
    ensures ParseInt(s) == Some(n)
  {
    ParseLiteralText(n);
  }

  lemma ParseLiteralText(n: int)
    ensures ParseLiteral(IntText(n)) == Some(n)
  {
    var t := IntText(n);
    if n < 0 {
      var ds := NatText(-n);
      assert t[1..] == ds;
      NatTextValue(-n);
    } else {
      NatTextValue(n);
      assert t[0] != '-' && t[0] != '+';
    }
  }

  lemma {:induction false} StripAround(pre: string, t: string, post: string)
    requires AllChars(pre, IsSpace) && AllChars(post, IsSpace)
    requires |t| > 0 && !IsSpace(t[0]) && !IsSpace(t[|t| - 1])
    ensures Strip(pre + t + post) == t
  {
    var u := t + post;
    assert pre + t + post == pre + u;
    assert u[0] == t[0];
    LStripPrefix(pre, u);
    RStripSuffix(t, post);
  }

  lemma {:induction false} LStripPrefix(pre: string, u: string)
    requires AllChars(pre, IsSpace)
    requires |u| > 0 && !IsSpace(u[0])
    ensures LStrip(pre + u) == u
    decreases |pre|
  {
    if |pre| > 0 {
      assert (pre + u)[1..] == pre[1..] + u;
      LStripPrefix(pre[1..], u);
    } else {
      assert pre + u == u;
    }
  }

  lemma {:induction false} RStripSuffix(u: string, post: string)
    requires AllChars(post, IsSpace)
    requires |u| > 0 && !IsSpace(u[|u| - 1])
    ensures RStrip(u + post) == u
    decreases |post|
  {
    if |post| > 0 {
      var last := |post| - 1;
      assert (u + post)[..|u + post| - 1] == u + post[..last];
      RStripSuffix(u, post[..last]);
    } else {
      assert u + post == u;
    }
  }

  /** `s` is whitespace, an optional sign, one or more decimal digits and
      whitespace: the strings `int()` accepts. */
  predicate LiteralParts(s: string, pre: string, sign: string, ds: string, post: string) {
    && AllChars(pre, IsSpace) && AllChars(post, IsSpace)
    && (sign == "" || sign == "+" || sign == "-")
    && |ds| > 0 && AllChars(ds, IsDigit)
    && s == pre + sign + ds + post
  }

  /** The integer a sign and a digit string denote. */
  function SignedValue(sign: string, ds: string): int
    requires AllChars(ds, IsDigit)
  {
    var v: int := DigitsValue(ds);
    if sign == "-" then -v else v
  }

  /** Everything `int()` accepts is a literal, and the result is the value the
      literal denotes: a doubled sign, inner blanks or trailing letters fail. */
  lemma ParseIntAccepts(s: string)
    requires ParseInt(s).Some?
    ensures exists pre, sign, ds, post ::
      LiteralParts(s, pre, sign, ds, post) && ParseInt(s).value == SignedValue(sign, ds)
  {
    var pre, post := StripParts(s);
    var sign, ds := LiteralSign(Strip(s));
    SplitMiddle(pre, Strip(s), sign, ds, post);
    assert LiteralParts(s, pre, sign, ds, post);
  }

  /** The whitespace `Strip` removes on either side. */
  lemma StripParts(s: string) returns (pre: string, post: string)
    ensures AllChars(pre, IsSpace) && AllChars(post, IsSpace)
    ensures s == pre + Strip(s) + post
  {
    pre := LStripParts(s);
    post := RStripParts(LStrip(s));
    Regroup(s, pre, LStrip(s), Strip(s), post);
  }

  lemma SplitMiddle(pre: string, t: string, sign: string, ds: string, post: string)
    requires t == sign + ds
    ensures pre + t + post == pre + sign + ds + post
  {
  }

  lemma Regroup(s: string, pre: string, l: string, t: string, post: string)
    requires s == pre + l && l == t + post
    ensures s == pre + t + post
  {
  }

  lemma LStripParts(s: string) returns (pre: string)
    ensures AllChars(pre, IsSpace) && s == pre + LStrip(s)
  {
    var l := LStrip(s);
    var k := |s| - |l|;
    pre := s[..k];
    assert l == s[k..];
    assert s == s[..k] + s[k..];
    forall i | 0 <= i < k ensures IsSpace(pre[i]) {
      assert pre[i] == s[i];
    }
  }

  lemma RStripParts(l: string) returns (post: string)
    ensures AllChars(post, IsSpace) && l == RStrip(l) + post
  {
    var t := RStrip(l);
    post := l[|t|..];
    forall i | 0 <= i < |post| ensures IsSpace(post[i]) {
      assert post[i] == l[|t| + i];
    }
  }

  /** An accepted literal splits into its optional sign and its digits. */
  lemma LiteralSign(t: string) returns (sign: string, ds: string)
    requires ParseLiteral(t).Some?
    ensures sign == "" || sign == "+" || sign == "-"
    ensures |ds| > 0 && AllChars(ds, IsDigit) && t == sign + ds
    ensures ParseLiteral(t) == Some(SignedValue(sign, ds))
  {
    if t[0] == '-' || t[0] == '+' {
      sign, ds := t[..1], t[1..];
    } else {
      sign, ds := "", t;
    }
  }

  /** Conversely, every literal is accepted, with the value it denotes. */
  lemma ParseIntLiteral(pre: string, sign: string, ds: string, post: string)
    requires LiteralParts(pre + sign + ds + post, pre, sign, ds, post)
    ensures ParseInt(pre + sign + ds + post) == Some(SignedValue(sign, ds))
  {
    var t := sign + ds;
    SplitMiddle(pre, t, sign, ds, post);
    assert t[|t| - 1] == ds[|ds| - 1];
    StripAround(pre, t, post);
    ParseSignedLiteral(sign, ds);
  }

  lemma ParseSignedLiteral(sign: string, ds: string)
    requires sign == "" || sign == "+" || sign == "-"
    requires |ds| > 0 && AllChars(ds, IsDigit)
    ensures ParseLiteral(sign + ds) == Some(SignedValue(sign, ds))
  {
    var t := sign + ds;
    if sign == "" {
      assert t == ds;
    } else {
      assert t[0] == sign[0] && t[1..] == ds;
    }
  }

  /** `int()` rejects a string with no digit in it, such as the empty piece
      left by a trailing comma. */
  lemma ParseIntNeedsDigit(s: string)
    requires forall i :: 0 <= i < |s| ==> !IsDigit(s[i])
    ensures ParseInt(s) == None
  {
    var t := Strip(s);
    var k := |LStrip(s)|;
    assert LStrip(s) == s[|s| - k..];
    assert forall i :: 0 <= i < |t| ==> t[i] == s[|s| - k + i];
    if |t| > 0 {
      assert !IsDigit(t[0]);
      if t[0] == '-' || t[0] == '+' {
        if |t| > 1 {
          assert !IsDigit(t[1..][0]);
        }
      }
    }
  }

  // ---------------------------------------------------------------------------
  // str.split(sep) and its inverse sep.join(pieces)

  function Count(s: string, c: char): nat {
    if |s| == 0 then 0 else (if s[0] == c then 1 else 0) + Count(s[1..], c)
  }

  /** `s.split(sep)` with an explicit one-character separator: the pieces
      between separators, including empty ones. */
  function Split(s: string, sep: char): (ps: seq<string>)
    ensures |ps| > 0
  {
    if |s| == 0 then [""]
    else
      var rest := Split(s[1..], sep);
      if s[0] == sep then [""] + rest
      else [[s[0]] + rest[0]] + rest[1..]
  }

  function Join(ps: seq<string>, sep: string): string {
    if |ps| == 0 then ""
    else if |ps| == 1 then ps[0]
    else ps[0] + sep + Join(ps[1..], sep)
  }

  lemma {:induction false} SplitCount(s: string, sep: char)
    ensures |Split(s, sep)| == Count(s, sep) + 1
  {
    if |s| > 0 {
      SplitCount(s[1..], sep);
    }
  }

  lemma {:induction false} SplitPiecesFree(s: string, sep: char)
    ensures forall k :: 0 <= k < |Split(s, sep)| ==> sep !in Split(s, sep)[k]
  {
    if |s| > 0 {
      SplitPiecesFree(s[1..], sep);
      var rest := Split(s[1..], sep);
      if s[0] != sep {
        assert sep !in rest[0];
        assert sep !in [s[0]] + rest[0];
      }
    }
  }

  /** Joining the pieces back with the separator gives the original string. */
  lemma {:induction false} JoinSplit(s: string, sep: char)
    ensures Join(Split(s, sep), [sep]) == s
  {
    if |s| > 0 {
      JoinSplit(s[1..], sep);
      var rest := Split(s[1..], sep);
      if s[0] == sep {
        assert s == [sep] + s[1..];
      } else if |rest| == 1 {
        assert s == [s[0]] + s[1..];
      } else {
        assert Join(rest, [sep]) == rest[0] + [sep] + Join(rest[1..], [sep]);
        assert s == [s[0]] + s[1..];
      }
    }
  }

  /** Splitting a join of separator-free pieces gives the pieces back. */
  lemma {:induction false} SplitJoin(ps: seq<string>, sep: char)
    requires |ps| > 0
    requires forall k :: 0 <= k < |ps| ==> sep !in ps[k]
    ensures Split(Join(ps, [sep]), sep) == ps
    decreases |ps|, |ps[0]|
  {
    if |ps[0]| > 0 {
      var p := ps[0];
      var ps' := ps[0 := p[1..]];
      assert sep !in p[1..] by {
        assert forall i :: 0 <= i < |p[1..]| ==> p[1..][i] == p[i + 1];
      }
      SplitJoin(ps', sep);
      var j := Join(ps, [sep]);
      if |ps| == 1 {
        assert j[1..] == Join(ps', [sep]);
      } else {
        assert j[1..] == p[1..] + [sep] + Join(ps[1..], [sep]);
        assert ps[1..] == ps'[1..];
      }
      assert j[0] == p[0] && p[0] != sep;
      assert [p[0]] + p[1..] == p;
    } else if |ps| > 1 {
      SplitJoin(ps[1..], sep);
      var j := Join(ps, [sep]);
      assert j == [sep] + Join(ps[1..], [sep]);
      assert j[1..] == Join(ps[1..], [sep]);
      assert ps == [""] + ps[1..];
    }
  }

  /** Characters of `s` that satisfy `keep`, in order. */
  function Filter(s: string, keep: char -> bool): (r: string)
    ensures |r| <= |s|
    ensures AllChars(r, keep)
  {
    if |s| == 0 then "" else (if keep(s[0]) then [s[0]] else "") + Filter(s[1..], keep)
  }

  lemma {:induction false} FilterConcat(a: string, b: string, keep: char -> bool)
    ensures Filter(a + b, keep) == Filter(a, keep) + Filter(b, keep)
  {
    if |a| > 0 {
      assert (a + b)[1..] == a[1..] + b;
      FilterConcat(a[1..], b, keep);
    } else {
      assert a + b == b;
    }
  }

  lemma {:induction false} FilterAll(s: string, keep: char -> bool)
    requires AllChars(s, keep)
    ensures Filter(s, keep) == s
  {
    if |s| > 0 {
      FilterAll(s[1..], keep);
    }
  }
}

=== FILE: slugalloc.dfy ===
/** Slug reservation and allocation (`Slug._make` and `Slug.new`).

    The slug store maps a slug string to the team it names. `os.urandom` is an
    input: `draws[k]` is the random prefix of the k-th attempt, and has
    `SLUG_TOKEN_AMOUNT + k` bytes because the token amount starts at two and
    grows by one per attempt. The source retries forever; the model stops
    when the supplied draws run out. */
module SlugAlloc {
  import opened Outcomes
  import opened PyText
  import Hex
  import opened SlugBase

  const SLUG_TOKEN_AMOUNT: nat := 2

  /** What `os.urandom(n)` guarantees about the draws: the k-th is n = 2 + k bytes long. */
  predicate DrawsSized(draws: seq<seq<Hex.byte>>) {
    forall k :: 0 <= k < |draws| ==> |draws[k]| == SLUG_TOKEN_AMOUNT + k
  }

  /** The store only grows: every reserved slug keeps naming the same team. */
  predicate Extends<T(==)>(before: map<string, T>, after: map<string, T>) {
    forall s :: s in before ==> s in after && after[s] == before[s]
  }

  /** `"%s-%s" % (slug_prefix, slug_name)` */
  function Candidate(prefix: seq<Hex.byte>, base: string): string {
    Hex.Encode(prefix) + "-" + base
  }

  datatype Made<T> = Made(created: bool, store: map<string, T>)

  /** `Slug._make`: an atomic insert-if-absent of `key -> team`. */
  function Make<T(==)>(store: map<string, T>, key: string, team: T): (r: Made<T>)
    ensures r.created <==> key !in store
    ensures Extends(store, r.store)
    ensures r.store.Keys == store.Keys + {key}
    ensures r.created ==> r.store[key] == team
  {
    if key in store then Made(false, store) else Made(true, store[key := team])
  }

  /** A successful allocation: the slug, the attempt (from 0) that reserved
      it, and the store after the reservation. */
  datatype Allocation<T> = Allocation(slug: string, attempt: nat, store: map<string, T>)

  /** The retry loop of `Slug.new` from attempt `k` on. */
  function AllocateFrom<T(==)>(store: map<string, T>, base: string, team: T,
                           draws: seq<seq<Hex.byte>>, k: nat): (r: Option<Allocation<T>>)
    requires k <= |draws|
    ensures r.None? <==> forall i :: k <= i < |draws| ==> Candidate(draws[i], base) in store
    ensures r.Some? ==>
      && k <= r.value.attempt < |draws|
      && r.value.slug == Candidate(draws[r.value.attempt], base)
      && r.value.slug !in store
      && r.value.store == store[r.value.slug := team]
      && forall i :: k <= i < r.value.attempt ==> Candidate(draws[i], base) in store
    decreases |draws| - k
  {
    if k == |draws| then None
    else
      var full := Candidate(draws[k], base);
      var m := Make(store, full, team);
      if m.created then Some(Allocation(full, k, m.store))
      else AllocateFrom(m.store, base, team, draws, k + 1)
  }

  /** `Slug.new(team)` for a team whose title is `title`. */
  function Allocate<T(==)>(store: map<string, T>, title: string, team: T,
                       draws: seq<seq<Hex.byte>>): (r: Option<Allocation<T>>)
    ensures r.None? <==> forall i :: 0 <= i < |draws| ==> Candidate(draws[i], Base(title)) in store
    ensures r.Some? ==> r.value.slug !in store && r.value.store == store[r.value.slug := team]
  {
    AllocateFrom(store, Base(title), team, draws, 0)
  }

  /** The loop of `Slug.new` as written: draw a prefix of `token_amount`
      bytes, grow the amount, try to reserve the candidate. */
  method New<T(==)>(store: map<string, T>, title: string, team: T, draws: seq<seq<Hex.byte>>)
    returns (r: Option<Allocation<T>>)
    requires DrawsSized(draws)
    ensures r == Allocate(store, title, team, draws)
    ensures r.Some? ==> r.value.slug !in store && r.value.store == store[r.value.slug := team]
    ensures r.None? ==> forall i :: 0 <= i < |draws| ==> Candidate(draws[i], Base(title)) in store
  {
    var slugName := Base(title);
    var tokenAmount := SLUG_TOKEN_AMOUNT;
    var k := 0;
    while k < |draws|
      invariant k <= |draws|
      invariant tokenAmount == SLUG_TOKEN_AMOUNT + k
      invariant AllocateFrom(store, slugName, team, draws, 0) == AllocateFrom(store, slugName, team, draws, k)
    {
      var slugPrefix := draws[k];
      assert |slugPrefix| == tokenAmount;
      tokenAmount := tokenAmount + 1;
      var fullSlug := Candidate(slugPrefix, slugName);
      var m := Make(store, fullSlug, team);
      if m.created {
        return Some(Allocation(fullSlug, k, m.store));
      }
      k := k + 1;
    }
    return None;
  }

  /** The shape of an allocated slug: on attempt k a prefix of 2 * (2 + k)
      lower-case hex digits, one hyphen, then the base unchanged (so an empty
      base leaves a trailing hyphen). */
  lemma AllocatedSlugShape<T>(store: map<string, T>, title: string, team: T,
                              draws: seq<seq<Hex.byte>>)
    requires DrawsSized(draws)
    requires Allocate(store, title, team, draws).Some?
    ensures var a := Allocate(store, title, team, draws).value;
      var n := 2 * (SLUG_TOKEN_AMOUNT + a.attempt);
      && |a.slug| == n + 1 + |Base(title)|
      && AllChars(a.slug[..n], Hex.IsHexChar)
      && a.slug[n] == '-'
      && a.slug[n + 1..] == Base(title)
  {
    var a := Allocate(store, title, team, draws).value;
    var p := Hex.Encode(draws[a.attempt]);
    assert a.slug == p + "-" + Base(title);
    assert a.slug[..|p|] == p;
  }

  /** Index of the first hyphen of a string, or its length if it has none. */
  function FirstHyphen(s: string): (i: nat)
    ensures i <= |s|
    ensures forall j :: 0 <= j < i ==> s[j] != '-'
    ensures i < |s| ==> s[i] == '-'
  {
    if |s| == 0 || s[0] == '-' then 0 else 1 + FirstHyphen(s[1..])
  }

  /** Reading a slug back: the text before its first hyphen decoded as hex,
      and the base after it. */
  function ParseSlug(slug: string): Option<(seq<Hex.byte>, string)> {
    var i := FirstHyphen(slug);
    if i == |slug| then None
    else
      match Hex.Decode(slug[..i])
      case None => None
      case Some(prefix) => Some((prefix, slug[i + 1..]))
  }

  /** A candidate slug determines its random prefix and its base. */
  lemma {:induction false} ParseCandidate(prefix: seq<Hex.byte>, base: string)
    ensures ParseSlug(Candidate(prefix, base)) == Some((prefix, base))
  {
    var p := Hex.Encode(prefix);
    var s := Candidate(prefix, base);
    Hex.EncodeHasNoHyphen(prefix);
    FirstHyphenAfter(p, base);
    assert s[..|p|] == p;
    Hex.DecodeEncode(prefix);
  }

  lemma {:induction false} FirstHyphenAfter(p: string, base: string)
    requires '-' !in p
    ensures FirstHyphen(p + "-" + base) == |p|
    decreases |p|
  {
    if |p| > 0 {
      assert (p + "-" + base)[1..] == p[1..] + "-" + base;
      FirstHyphenAfter(p[1..], base);
    }
  }

  /** Allocating twice, the second time from the store the first left behind,
      never returns the same slug, whatever the titles and the random draws. */
  lemma SuccessiveAllocationsDiffer<T>(store: map<string, T>, t1: string, t2: string, team1: T,
                                      team2: T, d1: seq<seq<Hex.byte>>, d2: seq<seq<Hex.byte>>)
    requires Allocate(store, t1, team1, d1).Some?
    requires Allocate(Allocate(store, t1, team1, d1).value.store, t2, team2, d2).Some?
    ensures var a1 := Allocate(store, t1, team1, d1).value;
      var a2 := Allocate(a1.store, t2, team2, d2).value;
      a1.slug != a2.slug && a2.store[a1.slug] == team1 && a2.store[a2.slug] == team2
  {
  }
}

=== FILE: slugbase.dfy ===
/** The human-readable part of a slug, derived from a team title by the two
    regular-expression substitutions of backend/main.py: `[^\w-]` becomes `-`,
    then every run `-+` becomes a single `-`. Nothing is stripped at the ends. */
module SlugBase {
  import opened PyText

  predicate NoDoubleHyphen(s: string) {
    forall i :: 0 <= i < |s| - 1 ==> !(s[i] == '-' && s[i + 1] == '-')
  }

  predicate NotHyphen(c: char) {
    c != '-'
  }

  /** `INVALID_SLUG_CHARS.sub('-', title)` */
  function Sanitize(title: string): (s: string)
    ensures |s| == |title|
    ensures AllChars(s, IsSlugChar)
    ensures forall i :: 0 <= i < |title| ==> (IsSlugChar(title[i]) <==> s[i] == title[i])
    ensures forall i :: 0 <= i < |title| && !IsSlugChar(title[i]) ==> s[i] == '-'
  {
    seq(|title|, i requires 0 <= i < |title| => if IsSlugChar(title[i]) then title[i] else '-')
  }

  /** `MULTIDASH_RE.sub('-', s)` */
  function Collapse(s: string): (r: string)
    ensures |r| <= |s|
    ensures |s| > 0 ==> |r| > 0 && r[0] == s[0]
  {
    if |s| == 0 then ""
    else if |s| > 1 && s[0] == '-' && s[1] == '-' then Collapse(s[1..])
    else [s[0]] + Collapse(s[1..])
  }

  /** The slug base of a title (`slug_name` in `Slug.new`). */
  function Base(title: string): (r: string)
    ensures |r| <= |title|
    ensures |title| > 0 ==> |r| > 0
  {
    Collapse(Sanitize(title))
  }

  lemma {:induction false} CollapseHasNoDoubleHyphen(s: string)
    ensures NoDoubleHyphen(Collapse(s))
  {
    if |s| > 0 {
      CollapseHasNoDoubleHyphen(s[1..]);
    }
  }

  lemma {:induction false} CollapseKeepsClass(s: string, cls: char -> bool)
    requires AllChars(s, cls)
    ensures AllChars(Collapse(s), cls)
  {
    if |s| > 0 {
      CollapseKeepsClass(s[1..], cls);
    }
  }

  /** Collapsing changes a string exactly when it has a run of two hyphens. */
  lemma {:induction false} CollapseFixpoint(s: string)
    ensures Collapse(s) == s <==> NoDoubleHyphen(s)
  {
    if NoDoubleHyphen(s) {
      CollapseIdentity(s);
    } else {
      CollapseHasNoDoubleHyphen(s);
    }
  }

  lemma {:induction false} CollapseIdentity(s: string)
    requires NoDoubleHyphen(s)
    ensures Collapse(s) == s
  {
    if |s| > 0 {
      assert NoDoubleHyphen(s[1..]) by {
        forall i | 0 <= i < |s[1..]| - 1
          ensures !(s[1..][i] == '-' && s[1..][i + 1] == '-')
        {
          assert s[1..][i] == s[i + 1] && s[1..][i + 1] == s[i + 2];
        }
      }
      CollapseIdentity(s[1..]);
      assert !(|s| > 1 && s[0] == '-' && s[1] == '-');
      assert s == [s[0]] + s[1..];
    }
  }

  /** A doubled hyphen anywhere collapses like a single one. */
  lemma {:induction false} CollapseMergesHyphens(a: string, b: string)
    ensures Collapse(a + "--" + b) == Collapse(a + "-" + b)
    decreases |a|
  {
    if |a| > 0 {
      CollapseMergesHyphens(a[1..], b);
      assert (a + "--" + b)[1..] == a[1..] + "--" + b;
      assert (a + "-" + b)[1..] == a[1..] + "-" + b;
    } else {
      assert a + "--" + b == "-" + ("-" + b);
      assert a + "-" + b == "-" + b;
    }
  }

  /** Collapsing removes hyphens only: every other character survives, in order. */
  lemma {:induction false} CollapseKeepsOthers(s: string, keep: char -> bool)
    requires !keep('-')
    ensures Filter(Collapse(s), keep) == Filter(s, keep)
  {
    if |s| > 0 {
      CollapseKeepsOthers(s[1..], keep);
      if !(|s| > 1 && s[0] == '-' && s[1] == '-') {
        var r := [s[0]] + Collapse(s[1..]);
        assert r[1..] == Collapse(s[1..]);
      }
    }
  }

  lemma {:induction false} SanitizeKeepsWordChars(t: string)
    ensures Filter(Sanitize(t), IsWordChar) == Filter(t, IsWordChar)
  {
    if |t| > 0 {
      SanitizeKeepsWordChars(t[1..]);
      assert Sanitize(t)[1..] == Sanitize(t[1..]);
    }
  }

  /** The base uses only `[A-Za-z0-9_-]` and never has two hyphens in a row. */
  lemma BaseShape(title: string)
    ensures AllChars(Base(title), IsSlugChar)
    ensures NoDoubleHyphen(Base(title))
  {
    CollapseKeepsClass(Sanitize(title), IsSlugChar);
    CollapseHasNoDoubleHyphen(Sanitize(title));
  }

  /** The word characters of the title survive in the base, in order and with
      their case; only hyphens are added or merged. */
  lemma BaseKeepsWordChars(title: string)
    ensures Filter(Base(title), IsWordChar) == Filter(title, IsWordChar)
  {
    SanitizeKeepsWordChars(title);
    CollapseKeepsOthers(Sanitize(title), IsWordChar);
  }

  /** Deriving a base from a base changes nothing. */
  lemma BaseIdempotent(title: string)
    ensures Base(Base(title)) == Base(title)
  {
    var b := Base(title);
    BaseShape(title);
    assert Sanitize(b) == b;
    CollapseIdentity(b);
  }

  /** Only the empty title has an empty base. */
  lemma BaseEmpty(title: string)
    ensures Base(title) == "" <==> title == ""
  {
  }

  /** A title with no character of `[\w-]` at all becomes a single hyphen. */
  lemma {:induction false} BaseOfInvalidTitle(title: string)
    requires title != ""
    requires forall i :: 0 <= i < |title| ==> !IsSlugChar(title[i])
    ensures Base(title) == "-"
  {
    var s := Sanitize(title);
    assert forall i :: 0 <= i < |s| ==> s[i] == '-';
    AllHyphensCollapse(s);
  }

  lemma {:induction false} AllHyphensCollapse(s: string)
    requires s != ""
    requires forall i :: 0 <= i < |s| ==> s[i] == '-'
    ensures Collapse(s) == "-"
  {
    if |s| > 1 {
      AllHyphensCollapse(s[1..]);
    }
  }

  /** "Hello, World!!" has the base "Hello-World-": the trailing run of
      invalid characters leaves one hyphen at the end. */
  lemma HelloWorldBase()
    ensures Base("Hello, World!!") == "Hello-World-"
  {
    HelloWorldSanitized();
    HelloWorldCollapsed();
  }

  lemma HelloWorldSanitized()
    ensures Sanitize("Hello, World!!") == "Hello" + "--" + "World--"
  {
  }

  lemma HelloWorldCollapsed()
    ensures Collapse("Hello" + "--" + "World--") == "Hello-World-"
  {
    assert "Hello" + "--" + "World--" == "Hello" + "--" + "World" + "--";
    TwoRunsCollapse("Hello", "World");
    assert "Hello" + "-" + "World" + "-" == "Hello-World-";
  }

  /** Two words each followed by a doubled hyphen collapse to single hyphens. */
  lemma TwoRunsCollapse(a: string, b: string)
    requires AllChars(a, IsWordChar) && AllChars(b, IsWordChar) && b != ""
    ensures Collapse(a + "--" + b + "--") == a + "-" + b + "-"
  {
    CollapseMergesHyphens(a, b + "--");
    assert a + "--" + (b + "--") == a + "--" + b + "--";
    assert a + "-" + (b + "--") == (a + "-" + b) + "--" + "";
    CollapseMergesHyphens(a + "-" + b, "");
    var r := a + "-" + b + "-";
    assert (a + "-" + b) + "-" + "" == r;
    assert NoDoubleHyphen(r) by {
      forall i | 0 <= i < |r| - 1 ensures !(r[i] == '-' && r[i + 1] == '-') {
        if i < |a| {
          assert r[i] == a[i];
        } else if i == |a| {
          assert r[i + 1] == b[0] && IsWordChar(b[0]);
        } else {
          assert r[i] == b[i - |a| - 1] && IsWordChar(b[i - |a| - 1]);
        }
      }
    }
    CollapseIdentity(r);
  }
}

=== FILE: teams.dfy ===
/** Teams, their slugs and their admins (backend/main.py), as one immutable
    site state with pure transitions for the request handlers.

    The viewer is `None` when the auth response says logged out, otherwise
    `Some(user_id)` of the current user. A handler that changes state returns
    the response together with the new site. */
module Teams {
  import opened Outcomes
  import opened PyText
  import Hex
  import opened SlugBase
  import opened SlugAlloc

  type TeamId = nat

  datatype Team = Team(
    primarySlug: Option<string>,
    title: string,
    description: string,
    goalDollars: Option<int>,
    youtubeId: Option<string>,
    zipCode: Option<string>)

  /** One `AdminToTeam` row. */
  datatype Grant = Grant(user: string, team: TeamId)

  /** The three datastore kinds: teams by key, slugs by name, admin rows.
      `nextTeam` is the key the datastore hands out on the next new team. */
  datatype Site = Site(
    teams: map<TeamId, Team>,
    slugs: map<string, TeamId>,
    admins: set<Grant>,
    nextTeam: TeamId)

  const EmptySite: Site := Site(map[], map[], {}, 0)

  /** Python truthiness of the `primary_slug` property: `None` and `""` are false. */
  predicate HasPrimary(t: Team) {
    t.primarySlug.Some? && t.primarySlug.value != ""
  }

  /** `"%s" % team.primary_slug`, which formats a missing slug as "None". */
  function PrimaryText(t: Team): string {
    match t.primarySlug
    case None => "None"
    case Some(p) => p
  }

  /** The datastore query `AdminToTeam.all().filter("team =", team).filter("user =", user).get()`
      found a row for a logged-in viewer. */
  predicate IsAdmin(site: Site, viewer: Option<string>, id: TeamId) {
    viewer.Some? && Grant(viewer.value, id) in site.admins
  }

  /** The invariant every handler keeps: each slug is non-empty and names an
      existing team that has a primary slug; a team's primary slug, once set,
      is a slug naming that team; keys below `nextTeam`; admin rows name teams. */
  ghost predicate Valid(site: Site) {
    && (forall s :: s in site.slugs ==>
          && s != ""
          && site.slugs[s] in site.teams
          && site.teams[site.slugs[s]].primarySlug.Some?)
    && (forall id :: id in site.teams ==> id < site.nextTeam)
    && (forall id :: id in site.teams && site.teams[id].primarySlug.Some? ==>
          && site.teams[id].primarySlug.value in site.slugs
          && site.slugs[site.teams[id].primarySlug.value] == id)
    && (forall g :: g in site.admins ==> g.team in site.teams)
  }

  // ---------------------------------------------------------------------------
  // TeamBaseHandler.validate

  datatype Lookup = Missing | Found(id: TeamId, team: Team, primary: bool, isAdmin: bool)

  function Validate(site: Site, slug: string, viewer: Option<string>): (r: Lookup)
    ensures r.Missing? <==> slug !in site.slugs || site.slugs[slug] !in site.teams
    ensures r.Found? ==> r.id == site.slugs[slug] && r.team == site.teams[r.id]
    ensures r.Found? ==> (!r.primary <==> HasPrimary(r.team) && r.team.primarySlug.value != slug)
    ensures r.Found? ==> (r.isAdmin <==> viewer.Some? && Grant(viewer.value, r.id) in site.admins)
  {
    if slug !in site.slugs then Missing
    else
      var id := site.slugs[slug];
      if id !in site.teams then Missing
      else
        var team := site.teams[id];
        var primary := !(HasPrimary(team) && team.primarySlug.value != slug);
        Found(id, team, primary, IsAdmin(site, viewer, id))
  }

  // ---------------------------------------------------------------------------
  // Responses

  datatype FormError = InvalidGoal | InvalidYoutubeId | InvalidZipCode

  datatype Response =
    | NotFound
    | Redirect(location: string, permanent: bool)
    | ShowTeam(id: TeamId, editUrl: Option<string>)
    | EditForm(id: TeamId)
    | NewForm
      /** An exception escaped the handler (a 500). */
    | ServerError(error: FormError)
      /** `Slug.new` did not return within the supplied random draws. */
    | Unfinished

  datatype Step = Step(response: Response, site: Site)

  function ViewUrl(t: Team): string {
    "/t/" + PrimaryText(t)
  }

  function EditUrl(t: Team): string {
    "/t/" + PrimaryText(t) + "/edit"
  }

  /** `TeamHandler.get` */
  function TeamGet(site: Site, slug: string, viewer: Option<string>): (r: Response)
    ensures r.NotFound? <==> Validate(site, slug, viewer).Missing?
    ensures r.Redirect? ==>
      var t := site.teams[site.slugs[slug]];
      r.permanent && HasPrimary(t) && slug != t.primarySlug.value && r.location == "/t/" + t.primarySlug.value
    ensures r.ShowTeam? ==> r.id == site.slugs[slug] && (r.editUrl.Some? <==> IsAdmin(site, viewer, r.id))
    ensures r.NotFound? || r.Redirect? || r.ShowTeam?
    ensures Validate(site, slug, viewer).Found? && !Validate(site, slug, viewer).primary ==>
      r == Redirect(ViewUrl(Validate(site, slug, viewer).team), true)
    ensures r.ShowTeam? && r.editUrl.Some? ==> r.editUrl.value == EditUrl(site.teams[r.id])
  {
    match Validate(site, slug, viewer)
    case Missing => NotFound
    case Found(id, team, primary, isAdmin) =>
      if !primary then Redirect(ViewUrl(team), true)
      else ShowTeam(id, if isAdmin then Some(EditUrl(team)) else None)
  }

  /** `EditTeamHandler.get` */
  function EditGet(site: Site, slug: string, viewer: Option<string>): (r: Response)
    ensures r.NotFound? <==> Validate(site, slug, viewer).Missing?
    ensures r.EditForm? ==> r.id == site.slugs[slug] && IsAdmin(site, viewer, r.id)
    ensures r.Redirect? ==>
      var t := site.teams[site.slugs[slug]];
      r.permanent <==> (HasPrimary(t) && slug != t.primarySlug.value)
    ensures r.NotFound? || r.Redirect? || r.EditForm?
    ensures var v := Validate(site, slug, viewer);
      v.Found? && !v.primary ==> r == Redirect(EditUrl(v.team), true)
    ensures var v := Validate(site, slug, viewer);
      v.Found? && v.primary && !v.isAdmin ==> r == Redirect(ViewUrl(v.team), false)
    ensures var v := Validate(site, slug, viewer);
      v.Found? && v.primary && v.isAdmin ==> r == EditForm(v.id)
  {
    match Validate(site, slug, viewer)
    case Missing => NotFound
    case Found(id, team, primary, isAdmin) =>
      if !primary then Redirect(EditUrl(team), true)
      else if !isAdmin then Redirect(ViewUrl(team), false)
      else EditForm(id)
  }

  /** `NewTeamHandler.get` behind `require_login`. */
  function NewGet(viewer: Option<string>): (r: Response)
    ensures r.NewForm? <==> viewer.Some?
    ensures viewer.None? ==> r == Redirect("/", false)
  {
    if viewer.None? then Redirect("/", false) else NewForm
  }

  // ---------------------------------------------------------------------------
  // Form handling shared by NewTeamHandler.post and EditTeamHandler.post

  /** The raw request fields; a missing field reads as "". */
  datatype TeamForm = TeamForm(
    title: string,
    description: string,
    goalDollars: string,
    youtubeId: string,
    zipCode: string)

  datatype Fields = Fields(goalDollars: Option<int>, youtubeId: Option<string>, zipCode: Option<string>)

  /** `request.get(name) or None` */
  function OrNone(s: string): (r: Option<string>)
    ensures r.None? <==> s == ""
    ensures r.Some? ==> r.value == s
  {
    if s == "" then None else Some(s)
  }

  /** `YOUTUBE_ID_VALIDATOR.match(s)`: `^[\w\-]+$` */
  predicate ValidYoutubeId(s: string) {
    LineMatch(s, IsSlugChar)
  }

  /** `INTEGER_VALIDATOR.match(s)`: `^[0-9]+$` */
  predicate ValidZipCode(s: string) {
    LineMatch(s, IsDigit)
  }

  /** The conversions and checks both posts run, in their order: `int()` of a
      non-empty goal, then the YouTube id, then the zip code. */
  function CheckForm(form: TeamForm): (r: Result<Fields, FormError>)
    ensures r.Success? <==>
      && (form.goalDollars == "" || ParseInt(form.goalDollars).Some?)
      && (form.youtubeId == "" || ValidYoutubeId(form.youtubeId))
      && (form.zipCode == "" || ValidZipCode(form.zipCode))
    ensures r == Failure(InvalidGoal) <==> form.goalDollars != "" && ParseInt(form.goalDollars).None?
    ensures r == Failure(InvalidYoutubeId) <==>
      && (form.goalDollars == "" || ParseInt(form.goalDollars).Some?)
      && form.youtubeId != "" && !ValidYoutubeId(form.youtubeId)
    ensures r == Failure(InvalidZipCode) <==>
      && (form.goalDollars == "" || ParseInt(form.goalDollars).Some?)
      && (form.youtubeId == "" || ValidYoutubeId(form.youtubeId))
      && form.zipCode != "" && !ValidZipCode(form.zipCode)
    ensures r.Success? ==>
      && r.value.goalDollars == (if form.goalDollars == "" then None else ParseInt(form.goalDollars))
      && r.value.youtubeId == OrNone(form.youtubeId)
      && r.value.zipCode == OrNone(form.zipCode)
  {
    var goal :- if form.goalDollars == "" then Success(None)
                else if ParseInt(form.goalDollars).None? then Failure(InvalidGoal)
                else Success(ParseInt(form.goalDollars));
    if form.youtubeId != "" && !ValidYoutubeId(form.youtubeId) then Failure(InvalidYoutubeId)
    else if form.zipCode != "" && !ValidZipCode(form.zipCode) then Failure(InvalidZipCode)
    else Success(Fields(goal, OrNone(form.youtubeId), OrNone(form.zipCode)))
  }

  // ---------------------------------------------------------------------------
  // NewTeamHandler.post

  /** Create a team: check the form, then `CreateTeam`. */
  function NewPost(site: Site, viewer: Option<string>, form: TeamForm,
                   draws: seq<seq<Hex.byte>>): (r: Step)
    ensures viewer.None? ==> r == Step(Redirect("/", false), site)
    ensures viewer.Some? && CheckForm(form).Failure? ==>
      r == Step(ServerError(CheckForm(form).error), site)
    ensures Extends(site.slugs, r.site.slugs)
    ensures site.admins <= r.site.admins
  {
    if viewer.None? then Step(Redirect("/", false), site)
    else match CheckForm(form)
      case Failure(e) => Step(ServerError(e), site)
      case Success(f) => CreateTeam(site, viewer.value, form, f, draws)
  }

  /** The team a valid creation form describes, before it has a slug. */
  function NewTeam(form: TeamForm, f: Fields): Team {
    Team(None, form.title, form.description, f.goalDollars, f.youtubeId, f.zipCode)
  }

  /** The writes of a create, in order: put the team (no slug yet), put the
      creator's admin row, allocate a slug, put the team again with it. The
      ensures give the state the writes add up to. */
  function CreateTeam(site: Site, user: string, form: TeamForm, f: Fields,
                      draws: seq<seq<Hex.byte>>): (r: Step)
    ensures var id := site.nextTeam;
      var granted := Site(site.teams[id := NewTeam(form, f)], site.slugs,
                          site.admins + {Grant(user, id)}, id + 1);
      match Allocate(site.slugs, form.title, id, draws)
      case None => r == Step(Unfinished, granted)
      case Some(a) =>
        r == Step(Redirect("/t/" + a.slug, false),
                  granted.(teams := site.teams[id := NewTeam(form, f).(primarySlug := Some(a.slug))],
                           slugs := a.store))
  {
    var id := site.nextTeam;
    var team := NewTeam(form, f);
    var put := site.(teams := site.teams[id := team], nextTeam := site.nextTeam + 1);
    var granted := put.(admins := put.admins + {Grant(user, id)});
    match Allocate(granted.slugs, form.title, id, draws)
    case None => Step(Unfinished, granted)
    case Some(a) =>
      var team' := team.(primarySlug := Some(a.slug));
      assert granted.teams[id := team'] == site.teams[id := team'];
      Step(Redirect("/t/" + a.slug, false),
           granted.(teams := granted.teams[id := team'], slugs := a.store))
  }

  // ---------------------------------------------------------------------------
  // EditTeamHandler.post

  /** Edit a team: only an admin gets past the redirect; the form is checked
      before anything is written; then a new slug is allocated from the new
      title and becomes the primary slug. There is no primary-slug check here. */
  function EditPost(site: Site, slug: string, viewer: Option<string>, form: TeamForm,
                    draws: seq<seq<Hex.byte>>): (r: Step)
    ensures Validate(site, slug, viewer).Missing? ==> r == Step(NotFound, site)
    ensures Validate(site, slug, viewer).Found? && !Validate(site, slug, viewer).isAdmin ==>
      r == Step(Redirect(ViewUrl(Validate(site, slug, viewer).team), false), site)
    ensures CheckForm(form).Failure? ==> r.site == site
    ensures var v := Validate(site, slug, viewer);
      v.Found? && v.isAdmin && CheckForm(form).Failure? ==> r.response == ServerError(CheckForm(form).error)
    ensures Extends(site.slugs, r.site.slugs)
    ensures r.site.admins == site.admins
    ensures var v := Validate(site, slug, viewer);
      v.Found? && v.isAdmin && CheckForm(form).Success? ==>
        var f := CheckForm(form).value;
        match Allocate(site.slugs, form.title, v.id, draws)
        case None => r == Step(Unfinished, site)
        case Some(a) =>
          r.response == Redirect("/t/" + a.slug, false)
          && r.site.slugs == site.slugs[a.slug := v.id]
          && r.site.teams == site.teams[v.id := Team(Some(a.slug), form.title, form.description,
                                                      f.goalDollars, f.youtubeId, f.zipCode)]
  {
    match Validate(site, slug, viewer)
    case Missing => Step(NotFound, site)
    case Found(id, team, _, isAdmin) =>
      if !isAdmin then Step(Redirect(ViewUrl(team), false), site)
      else match CheckForm(form)
        case Failure(e) => Step(ServerError(e), site)
        case Success(f) =>
          match Allocate(site.slugs, form.title, id, draws)
          case None => Step(Unfinished, site)
          case Some(a) =>
            var team' := team.(primarySlug := Some(a.slug), title := form.title,
                               description := form.description, goalDollars := f.goalDollars,
                               youtubeId := f.youtubeId, zipCode := f.zipCode);
            Step(Redirect("/t/" + a.slug, false),
                 site.(teams := site.teams[id := team'], slugs := a.store))
  }
}

=== FILE: teams_lemmas.dfy ===
/** What the team handlers promise across requests: the site invariant is
    kept, slugs are append-only and every old slug of a team keeps resolving,
    by a permanent redirect, to the team's current primary slug. */
module TeamsLemmas {
  import opened Outcomes
  import opened PyText
  import Hex
  import opened SlugBase
  import opened SlugAlloc
  import opened Teams

  lemma EmptySiteValid()
    ensures Valid(EmptySite)
  {
  }

  /** In a valid site a slug is primary exactly when it is the team's current
      primary slug. */
  lemma PrimaryIsCurrent(site: Site, slug: string, viewer: Option<string>)
    requires Valid(site)
    requires slug in site.slugs
    ensures var l := Validate(site, slug, viewer);
      && l.Found?
      && l.team.primarySlug.Some?
      && (l.primary <==> slug == l.team.primarySlug.value)
  {
    var id := site.slugs[slug];
    var p := site.teams[id].primarySlug.value;
    assert p in site.slugs;
  }

  /** Every reserved slug resolves: the current primary slug shows the page
      (with an edit link exactly for admins), every other slug of the team
      permanently redirects to it. */
  lemma SlugResolution(site: Site, slug: string, viewer: Option<string>)
    requires Valid(site)
    requires slug in site.slugs
    ensures var id := site.slugs[slug];
      var p := site.teams[id].primarySlug.value;
      TeamGet(site, slug, viewer) ==
        if slug == p then ShowTeam(id, if IsAdmin(site, viewer, id) then Some("/t/" + p + "/edit") else None)
        else Redirect("/t/" + p, true)
  {
    PrimaryIsCurrent(site, slug, viewer);
  }

  /** The edit page of a reserved slug: a non-primary slug redirects
      permanently to the primary edit page, a non-admin goes to the view page,
      an admin gets the form. */
  lemma EditPageResolution(site: Site, slug: string, viewer: Option<string>)
    requires Valid(site)
    requires slug in site.slugs
    ensures var id := site.slugs[slug];
      var p := site.teams[id].primarySlug.value;
      EditGet(site, slug, viewer) ==
        if slug != p then Redirect("/t/" + p + "/edit", true)
        else if !IsAdmin(site, viewer, id) then Redirect("/t/" + p, false)
        else EditForm(id)
  {
    PrimaryIsCurrent(site, slug, viewer);
  }

  /** Creating a team keeps the site valid, whether or not the slug
      allocation finishes. */
  lemma NewPostValid(site: Site, viewer: Option<string>, form: TeamForm, draws: seq<seq<Hex.byte>>)
    requires Valid(site)
    ensures Valid(NewPost(site, viewer, form, draws).site)
  {
    if viewer.Some? && CheckForm(form).Success? {
      CreateTeamValid(site, viewer.value, form, CheckForm(form).value, draws);
    }
  }

  /** The writes of a create, whether or not a slug is found, keep the site valid. */
  lemma CreateTeamValid(site: Site, user: string, form: TeamForm, f: Fields, draws: seq<seq<Hex.byte>>)
    requires Valid(site)
    ensures Valid(CreateTeam(site, user, form, f, draws).site)
  {
    var id := site.nextTeam;
    assert id !in site.teams;
    assert forall s :: s in site.slugs ==> site.slugs[s] != id;
    var a := Allocate(site.slugs, form.title, id, draws);
    if a.Some? {
      assert a.value.slug != "";
    }
  }

  /** Editing a team keeps the site valid. */
  lemma EditPostValid(site: Site, slug: string, viewer: Option<string>, form: TeamForm,
                      draws: seq<seq<Hex.byte>>)
    requires Valid(site)
    ensures Valid(EditPost(site, slug, viewer, form, draws).site)
  {
    var r := EditPost(site, slug, viewer, form, draws);
    var l := Validate(site, slug, viewer);
    if l.Found? && l.isAdmin && CheckForm(form).Success? {
      var a := Allocate(site.slugs, form.title, l.id, draws);
      if a.Some? {
        assert a.value.slug != "";
        assert Valid(r.site);
      }
    }
  }

  /** A successful create: the new team gets a fresh key and a freshly
      reserved primary slug `<hex>-<base of the title>`, the creator becomes
      its admin, nothing else is reserved, and the creator is sent to it. */
  lemma NewPostCreates(site: Site, user: string, form: TeamForm, draws: seq<seq<Hex.byte>>)
    requires Valid(site)
    requires CheckForm(form).Success?
    requires Allocate(site.slugs, form.title, site.nextTeam, draws).Some?
    ensures var r := NewPost(site, Some(user), form, draws);
      var id := site.nextTeam;
      var a := Allocate(site.slugs, form.title, id, draws).value;
      && id !in site.teams
      && a.slug !in site.slugs
      && r.response == Redirect("/t/" + a.slug, false)
      && r.site.slugs == site.slugs[a.slug := id]
      && r.site.admins == site.admins + {Grant(user, id)}
      && r.site.teams == site.teams[id := r.site.teams[id]]
      && r.site.teams[id] == NewTeam(form, CheckForm(form).value).(primarySlug := Some(a.slug))
  {
  }

  /** The page of a freshly created team shows at its new slug, with an edit
      link for its creator. */
  lemma NewPostShowsPage(site: Site, user: string, form: TeamForm, draws: seq<seq<Hex.byte>>)
    requires Valid(site)
    requires CheckForm(form).Success?
    requires Allocate(site.slugs, form.title, site.nextTeam, draws).Some?
    ensures var r := NewPost(site, Some(user), form, draws);
      var slug := Allocate(site.slugs, form.title, site.nextTeam, draws).value.slug;
      TeamGet(r.site, slug, Some(user)) == ShowTeam(site.nextTeam, Some("/t/" + slug + "/edit"))
  {
    var r := NewPost(site, Some(user), form, draws);
    var slug := Allocate(site.slugs, form.title, site.nextTeam, draws).value.slug;
    NewPostCreates(site, user, form, draws);
    NewPostValid(site, Some(user), form, draws);
    SlugResolution(r.site, slug, Some(user));
  }

  /** A rejected form writes nothing, on create and on edit. */
  lemma InvalidFormWritesNothing(site: Site, slug: string, viewer: Option<string>, form: TeamForm,
                                 draws: seq<seq<Hex.byte>>)
    requires CheckForm(form).Failure?
    ensures NewPost(site, viewer, form, draws).site == site
    ensures EditPost(site, slug, viewer, form, draws).site == site
    ensures viewer.Some? ==> NewPost(site, viewer, form, draws).response.ServerError?
  {
  }

  /** A successful edit: a fresh slug from the new title becomes primary,
      every older slug of the team now redirects permanently to it, and the
      slugs of other teams resolve exactly as before. */
  lemma EditPostMovesPrimary(site: Site, slug: string, viewer: Option<string>, form: TeamForm,
                             draws: seq<seq<Hex.byte>>)
    requires Valid(site)
    requires slug in site.slugs
    requires IsAdmin(site, viewer, site.slugs[slug])
    requires CheckForm(form).Success?
    requires Allocate(site.slugs, form.title, site.slugs[slug], draws).Some?
    ensures var id := site.slugs[slug];
      var a := Allocate(site.slugs, form.title, id, draws).value;
      var r := EditPost(site, slug, viewer, form, draws);
      && a.slug !in site.slugs
      && r.response == Redirect("/t/" + a.slug, false)
      && r.site.slugs == site.slugs[a.slug := id]
      && r.site.teams == site.teams[id := Team(Some(a.slug), form.title, form.description,
           CheckForm(form).value.goalDollars, CheckForm(form).value.youtubeId, CheckForm(form).value.zipCode)]
      && r.site.admins == site.admins
      && (forall s, v :: s in site.slugs && site.slugs[s] == id ==>
            TeamGet(r.site, s, v) == Redirect("/t/" + a.slug, true))
      && (forall s, v :: s in site.slugs && site.slugs[s] != id ==>
            TeamGet(r.site, s, v) == TeamGet(site, s, v))
  {
    var id := site.slugs[slug];
    var a := Allocate(site.slugs, form.title, id, draws).value;
    var r := EditPost(site, slug, viewer, form, draws);
    EditPostValid(site, slug, viewer, form, draws);
    forall s, v | s in site.slugs
      ensures site.slugs[s] == id ==> TeamGet(r.site, s, v) == Redirect("/t/" + a.slug, true)
      ensures site.slugs[s] != id ==> TeamGet(r.site, s, v) == TeamGet(site, s, v)
    {
      SlugResolution(r.site, s, v);
      SlugResolution(site, s, v);
    }
  }

  /** A non-admin's edit post changes nothing and sends them to the view page. */
  lemma EditByNonAdmin(site: Site, slug: string, viewer: Option<string>, form: TeamForm,
                       draws: seq<seq<Hex.byte>>)
    requires Valid(site)
    requires slug in site.slugs
    requires !IsAdmin(site, viewer, site.slugs[slug])
    ensures EditPost(site, slug, viewer, form, draws) ==
      Step(Redirect("/t/" + site.teams[site.slugs[slug]].primarySlug.value, false), site)
  {
  }

  /** Create a team, then edit it: the first slug now redirects permanently
      to the second, which shows the page with an edit link to its creator. */
  lemma CreateThenEdit(site: Site, user: string, f1: TeamForm, f2: TeamForm,
                       d1: seq<seq<Hex.byte>>, d2: seq<seq<Hex.byte>>)
    requires Valid(site)
    requires CheckForm(f1).Success? && CheckForm(f2).Success?
    requires Allocate(site.slugs, f1.title, site.nextTeam, d1).Some?
    requires var s1 := NewPost(site, Some(user), f1, d1).site;
      Allocate(s1.slugs, f2.title, site.nextTeam, d2).Some?
    ensures var s1 := NewPost(site, Some(user), f1, d1).site;
      var slug1 := Allocate(site.slugs, f1.title, site.nextTeam, d1).value.slug;
      var slug2 := Allocate(s1.slugs, f2.title, site.nextTeam, d2).value.slug;
      var s2 := EditPost(s1, slug1, Some(user), f2, d2).site;
      && slug1 != slug2
      && TeamGet(s2, slug1, Some(user)) == Redirect("/t/" + slug2, true)
      && TeamGet(s2, slug2, Some(user)) == ShowTeam(site.nextTeam, Some("/t/" + slug2 + "/edit"))
  {
    var id := site.nextTeam;
    var s1 := NewPost(site, Some(user), f1, d1).site;
    var slug1 := Allocate(site.slugs, f1.title, id, d1).value.slug;
    NewPostCreates(site, user, f1, d1);
    NewPostShowsPage(site, user, f1, d1);
    NewPostValid(site, Some(user), f1, d1);
    EditPostMovesPrimary(s1, slug1, Some(user), f2, d2);
    var s2 := EditPost(s1, slug1, Some(user), f2, d2).site;
    EditPostValid(s1, slug1, Some(user), f2, d2);
    var slug2 := Allocate(s1.slugs, f2.title, id, d2).value.slug;
    SlugResolution(s2, slug2, Some(user));
  }
}
